=== FILE: README.md ===
# smart_ptr::shared_ptr in Dafny

This project models `smart_ptr::shared_ptr<T>`, a hand-written
reference-counted pointer. It is meant to own its pointee, but `ptr_data`
has no destructor, so only the control block is ever deleted. It is built in three layers:

- `ref_count` is an `int` counter that starts at 1. `inc` adds one. `dec`
  refuses to go below zero and reports whether it decremented.
- `ptr_data` is the control block. It pairs the owned `T*` with a
  `ref_count` and forwards `inc`, `dec`, `get`, `value` and `use_count`.
- `shared_ptr` is the handle. It holds a nullable `ptr_data*` and moves it
  around on construction, copy, move, assignment, destruction, `reset` and
  `swap`. It exposes `get`, `*`, `->`, `use_count`, `bool` and the six
  comparisons.

The model has four modules, one per file.

- `SmartPtr` (smart_ptr.dfy) is the code itself, as classes.
  - `ControlBlock<T>` is `ptr_data`. Its `ref_count` member is stored by
    value, so the counter `m_rc` is the block's own field `count`.
  - `SharedPtr<T>` is `shared_ptr`, and its field `data` is `m_data`.
  - Each method's `modifies` and `ensures` clauses fix which block the
    handle ends up bound to, how much each counter changes, and whether a
    block is deleted. Everything outside the `modifies` frame is unchanged.
- `Ownership` (ownership.dfy) is the ownership graph of a whole run.
  - It records every handle (destroyed, empty, or bound to a block
    address), every block's counter, and the set of deleted blocks.
  - `Step` performs one API call with the same count changes and deletions
    as the code.
  - This is where properties about all live handles at once are proved:
    counter against number of owners, leaks, dangling handles.
- `Refinement` (refinement.dfy) connects the two. For a sequence of
  distinct `SharedPtr` objects and the blocks allocated so far (a map from
  each address to the block placed there), `View` is the graph they form. Each `Do…` method runs one class method and proves that the new
  view is `Step` of the old one.
- `Scenario` (scenario.dfy) replays the demonstration driver `main.cpp` on
  the classes. It proves every `use_count`, validity check, value and
  comparison the driver observes.

Conventions:

- A raw `T*` is `Pointer<T>`: `Null`, or `Ptr(target)`.
- `new ptr_data` places a block at an address that the caller passes in.
  `NullAddress` (0) is what `nullptr` compares as. The ordering operators
  compare these addresses.
- `delete m_data` sets the ghost flag `freed` on the control block.
- In C++, dereferencing a null `m_data` or touching a deleted block is
  undefined behaviour. Each such case is a `requires`:
  - `reset(T*)` and copy-assignment do not null-check, so they require a
    bound handle.
  - Operations that read or write a block require it not to be deleted.

The code is modelled as written, including where it departs from what a
reference-counted pointer is normally expected to do:

- **Destructor.** It deletes the block only when `dec()` returns false,
  that is when the count was already 0 (shared_ptr.h:198-201). A shared
  pointer is expected to free its block when the last owner lets go. `DestroyNeverFrees` proves that in
  every reachable state the destructor deletes nothing, and
  `DestroyLastOwnerLeaks` proves that the last owner's destruction leaves the
  block allocated with count 0.
- **`reset()`.** It deletes the block even when other handles share it
  (shared_ptr.h:245-249). A shared pointer is expected to release its share
  on `reset()` the same way its destructor does. `ResetSharedLeavesDangling` proves that the other owner is left on
  a deleted block.
- **`reset(T*)`.** It dereferences `m_data` without a null check and never
  deletes the old block (shared_ptr.h:255-256). A shared pointer is
  expected to accept `reset(p)` on an empty handle too.
- **Move-assignment.** It overwrites `m_data` without decrementing the old
  block (shared_ptr.h:222-223). A self-move empties the handle.
  `MoveAssignAccountedIff` proves that "every counter equals its number of
  owners" survives a move-assignment exactly when the target was empty.
- **Copy-assignment.** It does not null-check `other` (shared_ptr.h:211-212).
  A self-assignment on a block whose count is 0 would delete the block and
  then dereference null. `CopyAssignDefinedWhenCovered` proves that this
  cannot happen in a reachable state.

## Model

| member | source | states |
|---|---|---|
| `SmartPtr.ControlBlock.constructor` | shared_ptr.h:47-50 | a new block owns the given pointer, has a counter of 1 (the `ref_count` default constructor, lines 18-21) and is not deleted |
| `SmartPtr.ControlBlock.Inc` | shared_ptr.h:32-35 | the counter rises by exactly 1 and nothing else changes |
| `SmartPtr.ControlBlock.Dec` | shared_ptr.h:24-30 | on a counter of 0 it returns false and leaves the counter at 0; otherwise it returns true and lowers the counter by exactly 1 |
| `SmartPtr.ControlBlock.UseCount` | shared_ptr.h:37-40 | reports the counter, which is never negative |
| `SmartPtr.ControlBlock.Get` | shared_ptr.h:91-99 | returns the raw pointer the block owns |
| `SmartPtr.ControlBlock.Value` | shared_ptr.h:101-109 | for a non-null owned pointer, returns the pointee it designates |
| `SmartPtr.SharedPtr.UseCount` | shared_ptr.h:155-161 | 0 when the handle is not bound (`bool` false), otherwise the bound block's counter; never negative |
| `SmartPtr.SharedPtr.Empty` | shared_ptr.h:167-171 | the new handle is empty: `use_count()` is 0 and `bool` is false |
| `SmartPtr.SharedPtr.FromRaw` | shared_ptr.h:173-177 | the new handle is bound to a freshly allocated block with counter 1; `use_count()` is 1 and `get()` returns the given pointer |
| `SmartPtr.SharedPtr.Copy` | shared_ptr.h:179-186 | the new handle holds the source's block; a bound block's counter rises by exactly 1; an empty source gives an empty handle and changes no counter |
| `SmartPtr.SharedPtr.Move` | shared_ptr.h:188-193 | the new handle takes the source's block, the source becomes empty, and no counter changes |
| `SmartPtr.SharedPtr.Destroy` | shared_ptr.h:195-202 | a bound block is decremented once (saturating) and deleted exactly when its counter was already 0; only then is `m_data` nulled; an empty handle changes nothing |
| `SmartPtr.SharedPtr.CopyAssign` | shared_ptr.h:204-217 | requires `other` bound; releases the current block as the destructor does, then holds `other`'s block with its counter raised by 1; when both already share a block, that counter ends where it started |
| `SmartPtr.SharedPtr.MoveAssign` | shared_ptr.h:219-225 | the handle takes `other`'s block and `other` becomes empty; the old block is not decremented, no counter changes, and a self-move leaves the handle empty |
| `SmartPtr.SharedPtr.Get` | shared_ptr.h:227-234 | null for an empty handle, otherwise the pointer the block owns |
| `SmartPtr.SharedPtr.Swap` | shared_ptr.h:236-240 | the two handles exchange blocks and no counter changes |
| `SmartPtr.SharedPtr.Reset` | shared_ptr.h:242-250 | on a bound handle, decrements the block once, deletes it whatever the remaining count, and leaves the handle empty; on an empty handle it does nothing |
| `SmartPtr.SharedPtr.ResetTo` | shared_ptr.h:252-257 | requires a bound handle; decrements the old block without deleting it and binds to a fresh block with counter 1 owning the new pointer |
| `SmartPtr.SharedPtr.Deref` | shared_ptr.h:259-263 | the pointee is what `get()` points at |
| `SmartPtr.SharedPtr.Arrow` | shared_ptr.h:265-269 | returns the same pointer as `get()`, whose target is what `*` reads |
| `SmartPtr.SharedPtr.Equals` | shared_ptr.h:271-275 | true exactly when both handles hold the same block (both empty counts as the same); equal handles have equal addresses |
| `SmartPtr.SharedPtr.EqualsNull` | shared_ptr.h:277-281 | true exactly when the handle's address is the null address, that is when it is empty |
| `SmartPtr.SharedPtr.NotEquals` | shared_ptr.h:283-287 | the negation of `==` |
| `SmartPtr.SharedPtr.NotEqualsNull` | shared_ptr.h:289-293 | the negation of `== nullptr` |
| `SmartPtr.SharedPtr.Greater` | shared_ptr.h:295-299 | `a > b` is `b < a`, and is the negation of `a <= b` |
| `SmartPtr.SharedPtr.GreaterEq` | shared_ptr.h:301-305 | `a >= b` is `b <= a`, and is the negation of `a < b` |
| `SmartPtr.SharedPtr.Less` | shared_ptr.h:307-311 | a handle strictly below another never holds the same block |
| `SmartPtr.SharedPtr.LessEq` | shared_ptr.h:313-317 | implied both by `<` and by `==` |
| `SmartPtr.SharedPtr.IsNonNull` | shared_ptr.h:319-323 | `bool` is `!= nullptr`: the handle holds a block at a non-null address |
| `SmartPtr.LessIsStrictWeakOrder` | shared_ptr.h:307-317 | `<` is irreflexive, asymmetric and transitive, incomparability is transitive, and `<=` is total: a strict weak order usable for sorted containers |
| `SmartPtr.OrderingAgreesWithIdentity` | shared_ptr.h:295-317 | when distinct blocks have distinct addresses, exactly one of `<`, `==`, `>` holds, `<=` is `<` or `==`, and `>=` is `>` or `==` |
| `Ownership.Enabled` | shared_ptr.h:167-257 | which calls are defined C++: named handles alive, no deleted block touched, `reset(T*)` and copy-assignment not on a null block, `new` at an unused address; in a well-formed graph every block a defined call touches is non-null and not deleted |
| `Ownership.ReleaseAsDestructor` | shared_ptr.h:198-201 | the release shared by the destructor and copy-assignment (lines 207-210): on an empty handle the graph is unchanged; otherwise handles and allocated blocks unchanged, other blocks' counters unchanged; a counter above 0 drops by 1 and nothing is deleted; a counter of 0 stays 0 and the block is deleted |
| `Ownership.StepFrame` | shared_ptr.h:167-257 | `Step`, the graph-level effect of each call: only the handles the call names change (plus the one a constructor adds); only the blocks it touches change counter or get deleted; no allocated block is forgotten and a deleted block stays deleted |
| `Ownership.UseCount` | shared_ptr.h:155-161 | the graph's `use_count()` of a handle: 0 for an empty handle, its block's counter for a bound one, and never negative in a well-formed graph |
| `Ownership.ReleaseIsExact` | shared_ptr.h:24-30 | in a graph where counters cover owners, `dec` on a live bound handle's block always succeeds and lowers the counter by exactly 1 |
| `Ownership.StepPreservesWellFormed` | shared_ptr.h:167-257 | every operation keeps the graph well formed: counters non-negative, every held address allocated, deleted blocks allocated |
| `Ownership.StepBalance` | shared_ptr.h:167-257 | in a graph where counters cover owners, every operation but move-assignment changes each counter by exactly the change in its number of owners; move-assignment leaves exactly one extra count on the target's old block; a new block gets one owner and counter 1 |
| `Ownership.StepPreservesCovered` | shared_ptr.h:167-257 | no operation lets a counter fall below the number of live handles holding its block |
| `Ownership.StepPreservesAccounted` | shared_ptr.h:167-257 | every operation except move-assignment (lines 219-225) keeps each counter equal to the number of live handles holding its block |
| `Ownership.MoveAssignAccountedIff` | shared_ptr.h:219-225 | move-assignment keeps counters equal to owners if and only if the target handle was empty |
| `Ownership.RunPreservesCovered` | shared_ptr.h:167-257 | every defined sequence of operations from a covered graph ends in a well-formed covered graph |
| `Ownership.RunPreservesAccounted` | shared_ptr.h:167-257 | every defined sequence without move-assignment keeps counters equal to owners |
| `Ownership.ReachableIsCovered` | shared_ptr.h:167-257 | every state reachable from "no handles" has counters at least the number of owners |
| `Ownership.UseCountZeroIffEmpty` | shared_ptr.h:155-161 | in a reachable state, `use_count()` is 0 if and only if the handle is empty |
| `Ownership.DestroyNeverFrees` | shared_ptr.h:195-202 | in a reachable state the destructor never deletes a block |
| `Ownership.DestroyLastOwnerLeaks` | shared_ptr.h:195-202 | in a graph where every counter equals its number of owners, destroying a block's only owner leaves it with counter 0, no owner, and not deleted |
| `Ownership.ResetSharedLeavesDangling` | shared_ptr.h:242-250 | `reset()` on a handle that shares its block deletes the block while the other handle still holds it |
| `Ownership.CopyAssignDefinedWhenCovered` | shared_ptr.h:204-217 | in a reachable state, copy-assignment from a bound, usable handle is always defined, self-assignment included |
| `Ownership.SwapTwiceRestores` | shared_ptr.h:236-240 | swap changes no counter, and swapping the same two handles twice restores the graph |
| `Refinement.ViewIsWellFormed` | shared_ptr.h:163-164 | distinct handles whose blocks are all registered at their own addresses form a well-formed graph |
| `Refinement.UseCountAgrees` | shared_ptr.h:155-161 | on a coherent collection, a live handle's `use_count()` equals the graph's `UseCount` for it |
| `Refinement.DoMakeEmpty` | shared_ptr.h:167-171 | the empty constructor performs `Step(MakeEmpty)` on the graph |
| `Refinement.DoMakeFromRaw` | shared_ptr.h:173-177 | the raw-pointer constructor performs `Step(MakeFromRaw)`; the new handle's block is freshly allocated and registered at its address |
| `Refinement.DoCopyFrom` | shared_ptr.h:179-186 | the copy constructor performs `Step(CopyFrom)` |
| `Refinement.DoMoveFrom` | shared_ptr.h:188-193 | the move constructor is always defined and performs `Step(MoveFrom)` |
| `Refinement.DoDestroy` | shared_ptr.h:195-202 | the destructor performs `Step(Destroy)` |
| `Refinement.DoCopyAssign` | shared_ptr.h:204-217 | copy-assignment performs `Step(CopyAssign)` |
| `Refinement.DoMoveAssign` | shared_ptr.h:219-225 | move-assignment is always defined and performs `Step(MoveAssign)` |
| `Refinement.DoSwap` | shared_ptr.h:236-240 | swap is always defined and performs `Step(Swap)` |
| `Refinement.DoReset` | shared_ptr.h:242-250 | `reset()` performs `Step(Reset)` |
| `Refinement.DoResetTo` | shared_ptr.h:252-257 | `reset(T*)` performs `Step(ResetTo)`; the handle's new block is freshly allocated and registered at its address |
| `Scenario.NullPointerTests` | main.cpp:34-47 | an empty handle and a copy of it report use count 0 and are invalid by `bool` and by `get()` |
| `Scenario.StringTests` | main.cpp:49-56 | a handle to a new string has use count 1 and reads the string; after `reset(T*)` the old block is left with count 0 and not deleted |
| `Scenario.CopyMoveTests` | main.cpp:58-101 | copy gives use count 2 and `==`; move keeps count 2, empties the source and gives `==`; a further copy gives count 3 and `==` |
| `Scenario.SwapTests` | main.cpp:103-117 | after swapping with a new handle the two report counts 3 and 1 and compare `!=`; the scoped handle's destructor lowers the shared count to 2 |
| `Scenario.EndOfMain` | main.cpp:118-121 | the destructors of `p6` down to `p1` at the end of `main` bring both remaining blocks' counters to 0 and delete neither |
| `Scenario.MainScenario` | main.cpp:32-121 | the driver observes use counts 0, 0, 1, 2, 2, 3, 3, 1, 2, the expected validity, values and comparisons; once every destructor has run, all three blocks have counter 0 and none was deleted |

## Left out

- `ptr_data`'s copy constructor, copy assignment, `operator==` and `operator!=` (shared_ptr.h:52-78) are not modelled. `shared_ptr` never calls them, and that `operator==` compares two `ref_count` objects, which define no `==`. The commented-out lines 62-64 and 213-215 are dead code.
- The `const` overloads of `ptr_data::get` and `ptr_data::value` are the same operation as the non-const ones and share one member each.
- `m_rc` is a C++ `int`. The model uses unbounded integers, so overflow after about 2^31 increments is not modelled.
- Real memory is not modelled. Block addresses are parameters standing for what `new` returns. The class model does not force distinct blocks onto distinct addresses. `OrderingAgreesWithIdentity` assumes it, and `Refinement.Coherent` gets it by keying the blocks by address.
- Memory release: `freed` marks only the control block. `ptr_data` declares no destructor, so `delete m_data` (shared_ptr.h:199, 208, 247) never deletes the object `m_value` points to, and every pointee, such as each `new std::string` in main.cpp:49, 55 and 104, is leaked; the model does not track pointee memory. The model's `new` also never reuses the address of a deleted block (`Ownership.Enabled` requires a fresh address absent from the graph), whereas a real allocator may.
- Deallocation is the ghost flag `freed`. What a program does after undefined behaviour (use after free, null dereference) is not modelled: those cases are preconditions, or disabled steps in `Ownership.Enabled`.
- Allocation failure of `new` is not modelled.
- Thread safety is not modelled. The counter is a plain `int` and the code has no concurrency.
- Operations on the pointee type, such as `std::string::size` in main.cpp, and the printing in main.cpp are not modelled.
- SmartPtr.SharedPtr.Deref: returns the pointee's value rather than a `T&`, so writing through `*p` or `p->` is not modelled.
- SmartPtr.SharedPtr.Destroy: the Dafny object still exists after its destructor has run. Only the ownership graph marks a destroyed handle as ended.

=== FILE: ownership.dfy ===
/**
 * The ownership graph of a whole program run: every handle ever created
 * (by position of creation), the block address each one holds, the counter
 * of every block ever allocated, and the set of deleted blocks. `Step`
 * performs one `shared_ptr` operation with exactly the count changes and
 * deletions of shared_ptr.h, so properties that involve every live handle at
 * once (the reference count against the number of owners, leaks, dangling
 * handles) can be stated and proved here.
 */
module Ownership {
  import opened SmartPtr

  /** A handle: destroyed, or alive and holding a block address (NullAddress when empty). */
  datatype Slot = Ended | Live(addr: nat)

  datatype Graph = Graph(slots: seq<Slot>, counts: map<nat, int>, freed: set<nat>)

  /** One call on the handle API; handles are named by their position in `slots`. */
  datatype Op =
    | MakeEmpty                       // shared_ptr()
    | MakeFromRaw(addr: nat)          // shared_ptr(new T), the block placed at addr
    | CopyFrom(src: nat)              // shared_ptr(const shared_ptr&)
    | MoveFrom(src: nat)              // shared_ptr(shared_ptr&&)
    | Destroy(h: nat)                 // ~shared_ptr()
    | CopyAssign(h: nat, src: nat)    // h = src
    | MoveAssign(h: nat, src: nat)    // h = std::move(src)
    | Swap(h: nat, other: nat)        // h.swap(other)
    | Reset(h: nat)                   // h.reset()
    | ResetTo(h: nat, addr: nat)      // h.reset(new T), the block placed at addr

  /** The state before any handle exists. */
  const Init: Graph := Graph([], map[], {})

  ghost predicate WellFormed(g: Graph)
  {
    && NullAddress !in g.counts
    && g.freed <= g.counts.Keys
    && (forall a :: a in g.counts ==> g.counts[a] >= 0)
    && (forall k :: 0 <= k < |g.slots| && g.slots[k].Live? && g.slots[k].addr != NullAddress ==>
          g.slots[k].addr in g.counts)
  }

  predicate IsLive(g: Graph, k: nat)
  {
    k < |g.slots| && g.slots[k].Live?
  }

  /** A handle holding address `a` may touch its block: it is empty, or the block is not deleted. */
  predicate Usable(g: Graph, a: nat)
  {
    a == NullAddress || (a in g.counts && a !in g.freed)
  }

  /** The block handle `k` holds, if it is alive and bound. */
  function HeldBy(g: Graph, k: nat): set<nat>
  {
    if IsLive(g, k) && g.slots[k].addr != NullAddress then {g.slots[k].addr} else {}
  }

  /** The addresses whose block `op` reads, writes, deletes or allocates. */
  function Touches(g: Graph, op: Op): set<nat>
  {
    match op
    case MakeEmpty => {}
    case MakeFromRaw(a) => {a}
    case CopyFrom(j) => HeldBy(g, j)
    case MoveFrom(_) => {}
    case Destroy(i) => HeldBy(g, i)
    case CopyAssign(i, j) => HeldBy(g, i) + HeldBy(g, j)
    case MoveAssign(_, _) => {}
    case Swap(_, _) => {}
    case Reset(i) => HeldBy(g, i)
    case ResetTo(i, a) => HeldBy(g, i) + {a}
  }

  /** `op` names handle `k`. */
  predicate Names(op: Op, k: nat)
  {
    match op
    case MakeEmpty => false
    case MakeFromRaw(_) => false
    case CopyFrom(j) => false
    case MoveFrom(j) => k == j
    case Destroy(i) => k == i
    case CopyAssign(i, _) => k == i
    case MoveAssign(i, j) => k == i || k == j
    case Swap(i, j) => k == i || k == j
    case Reset(i) => k == i
    case ResetTo(i, _) => k == i
  }

  /** `op` is a constructor: it adds a handle. */
  predicate Creates(op: Op)
  {
    op.MakeEmpty? || op.MakeFromRaw? || op.CopyFrom? || op.MoveFrom?
  }

  /**
   * The operations whose C++ behaviour is defined: the handles named are
   * alive, no deleted block is touched, `new` returns an unused non-null
   * address, and the pointer copy-assignment and `reset(T*)` dereference
   * without a null check is not null.
   */
  predicate Enabled(g: Graph, op: Op): (r: bool)
    ensures r && WellFormed(g) ==> forall a :: a in Touches(g, op) ==> a != NullAddress && a !in g.freed
  {
    match op
    case MakeEmpty => true
    case MakeFromRaw(a) => a != NullAddress && a !in g.counts
    case CopyFrom(j) => IsLive(g, j) && Usable(g, g.slots[j].addr)
    case MoveFrom(j) => IsLive(g, j)
    case Destroy(i) => IsLive(g, i) && Usable(g, g.slots[i].addr)
    case CopyAssign(i, j) =>
      && IsLive(g, i) && IsLive(g, j)
      && Usable(g, g.slots[i].addr) && Usable(g, g.slots[j].addr)
      && g.slots[j].addr != NullAddress
      && (g.slots[i].addr == g.slots[j].addr ==> g.counts[g.slots[j].addr] != 0)
    case MoveAssign(i, j) => IsLive(g, i) && IsLive(g, j)
    case Swap(i, j) => IsLive(g, i) && IsLive(g, j)
    case Reset(i) => IsLive(g, i) && Usable(g, g.slots[i].addr)
    case ResetTo(i, a) =>
      && IsLive(g, i) && g.slots[i].addr != NullAddress && Usable(g, g.slots[i].addr)
      && a != NullAddress && a !in g.counts
  }

  /** `if (m_data && !m_data->dec()) delete m_data;` on the block at `a`. */
  function ReleaseAsDestructor(g: Graph, a: nat): (r: Graph)
    requires Usable(g, a)
    ensures a == NullAddress ==> r == g
    ensures r.slots == g.slots && r.counts.Keys == g.counts.Keys
    ensures forall b :: b in g.counts && b != a ==> r.counts[b] == g.counts[b]
    ensures a != NullAddress && g.counts[a] != 0 ==> r.counts[a] == g.counts[a] - 1 && r.freed == g.freed
    ensures a != NullAddress && g.counts[a] == 0 ==> r.counts[a] == 0 && r.freed == g.freed + {a}
  {
    if a == NullAddress then g
    else g.(counts := g.counts[a := SaturatingDec(g.counts[a])],
            freed := if g.counts[a] == 0 then g.freed + {a} else g.freed)
  }

  /** The effect of one call on the graph. */
  function Step(g: Graph, op: Op): Graph
    requires Enabled(g, op)
  {
    match op
    case MakeEmpty => g.(slots := g.slots + [Live(NullAddress)])
    case MakeFromRaw(a) => g.(slots := g.slots + [Live(a)], counts := g.counts[a := 1])
    case CopyFrom(j) =>
      var a := g.slots[j].addr;
      g.(slots := g.slots + [Live(a)],
         counts := if a == NullAddress then g.counts else g.counts[a := g.counts[a] + 1])
    case MoveFrom(j) => g.(slots := g.slots[j := Live(NullAddress)] + [g.slots[j]])
    case Destroy(i) =>
      ReleaseAsDestructor(g, g.slots[i].addr).(slots := g.slots[i := Ended])
    case CopyAssign(i, j) =>
      var b := g.slots[j].addr;
      var r := ReleaseAsDestructor(g, g.slots[i].addr);
      Graph(g.slots[i := Live(b)], r.counts[b := r.counts[b] + 1], r.freed)
    case MoveAssign(i, j) => g.(slots := g.slots[i := g.slots[j]][j := Live(NullAddress)])
    case Swap(i, j) => g.(slots := g.slots[i := g.slots[j]][j := g.slots[i]])
    case Reset(i) =>
      var a := g.slots[i].addr;
      if a == NullAddress then g
      else Graph(g.slots[i := Live(NullAddress)], g.counts[a := SaturatingDec(g.counts[a])], g.freed + {a})
    case ResetTo(i, a) =>
      var b := g.slots[i].addr;
      g.(slots := g.slots[i := Live(a)], counts := g.counts[b := SaturatingDec(g.counts[b])][a := 1])
  }

  /**
   * The frame of one call: only the handles it names change (plus the one it
   * creates), only the blocks it touches change their counter or get deleted,
   * no block is ever forgotten, and a deleted block stays deleted.
   */
  lemma StepFrame(g: Graph, op: Op)
    requires Enabled(g, op)
    ensures |Step(g, op).slots| == |g.slots| + (if Creates(op) then 1 else 0)
    ensures forall k :: 0 <= k < |g.slots| && !Names(op, k) ==> Step(g, op).slots[k] == g.slots[k]
    ensures g.counts.Keys <= Step(g, op).counts.Keys <= g.counts.Keys + Touches(g, op)
    ensures forall a :: a in g.counts && a !in Touches(g, op) ==> Step(g, op).counts[a] == g.counts[a]
    ensures g.freed <= Step(g, op).freed <= g.freed + Touches(g, op)
  {
  }

  /** Runs `ops` from `g`; `None` when some operation's behaviour is undefined. */
  function Run(g: Graph, ops: seq<Op>): Option<Graph>
    decreases |ops|
  {
    if ops == [] then Some(g)
    else if Enabled(g, ops[0]) then Run(Step(g, ops[0]), ops[1..])
    else None
  }

  datatype Option<T> = None | Some(value: T)

  /** How many live handles hold address `a`. */
  function Owners(slots: seq<Slot>, a: nat): nat
  {
    if slots == [] then 0
    else Owners(slots[..|slots| - 1], a) + (if slots[|slots| - 1] == Live(a) then 1 else 0)
  }

  /** `use_count()` of handle `k`. */
  function UseCount(g: Graph, k: nat): (r: int)
    requires IsLive(g, k) && Usable(g, g.slots[k].addr)
    ensures WellFormed(g) ==> r >= 0
    ensures g.slots[k].addr == NullAddress ==> r == 0
    ensures g.slots[k].addr != NullAddress ==> r == g.counts[g.slots[k].addr]
  {
    var a := g.slots[k].addr;
    if a == NullAddress then 0 else g.counts[a]
  }

  /** Every block's counter is at least the number of live handles holding it. */
  ghost predicate Covered(g: Graph)
  {
    forall a :: a in g.counts ==> g.counts[a] >= Owners(g.slots, a)
  }

  /** Every block's counter is exactly the number of live handles holding it. */
  ghost predicate Accounted(g: Graph)
  {
    forall a :: a in g.counts ==> g.counts[a] == Owners(g.slots, a)
  }

  // ---------------------------------------------------------------- Owners

  lemma {:induction false} OwnersAppend(s: seq<Slot>, x: Slot, a: nat)
    ensures Owners(s + [x], a) == Owners(s, a) + (if x == Live(a) then 1 else 0)
  {
    assert (s + [x])[..|s|] == s;
  }

  lemma {:induction false} OwnersUpdate(s: seq<Slot>, k: nat, x: Slot, a: nat)
    requires k < |s|
    ensures Owners(s[k := x], a) + (if s[k] == Live(a) then 1 else 0)
            == Owners(s, a) + (if x == Live(a) then 1 else 0)
    decreases |s|
  {
    var n := |s| - 1;
    if k == n {
      assert s[k := x][..n] == s[..n];
    } else {
      assert s[k := x][..n] == s[..n][k := x];
      OwnersUpdate(s[..n], k, x, a);
    }
  }

  lemma OwnersAtLeastOne(s: seq<Slot>, k: nat, a: nat)
    requires k < |s| && s[k] == Live(a)
    ensures Owners(s, a) >= 1
  {
    OwnersUpdate(s, k, Ended, a);
  }

  lemma {:induction false} OwnersOfUnheld(s: seq<Slot>, a: nat)
    requires forall k :: 0 <= k < |s| ==> s[k] != Live(a)
    ensures Owners(s, a) == 0
    decreases |s|
  {
    if s != [] {
      OwnersOfUnheld(s[..|s| - 1], a);
    }
  }

  // ---------------------------------------------------------------- Step

  lemma StepPreservesWellFormed(g: Graph, op: Op)
    requires WellFormed(g) && Enabled(g, op)
    ensures WellFormed(Step(g, op))
  {
  }

  /** How far a block's counter exceeds its number of owners. */
  ghost function Excess(g: Graph, a: nat): int
    requires a in g.counts
  {
    g.counts[a] - Owners(g.slots, a)
  }

  /**
   * In a graph where counters cover owners, every operation except
   * move-assignment changes each block's counter by exactly the change in
   * its number of owners; move-assignment leaves one owner of the target's
   * old block uncounted. New blocks start with one owner and a count of 1.
   */
  lemma StepBalance(g: Graph, op: Op)
    requires WellFormed(g) && Covered(g) && Enabled(g, op)
    ensures Step(g, op).counts.Keys ==
              g.counts.Keys + (if op.MakeFromRaw? || op.ResetTo? then {op.addr} else {})
    ensures forall a :: a in Step(g, op).counts ==>
              Excess(Step(g, op), a) ==
                (if a in g.counts then Excess(g, a) else 0) +
                (if op.MoveAssign? && a == g.slots[op.h].addr then 1 else 0)
  {
    forall a | a in Step(g, op).counts
      ensures Excess(Step(g, op), a) ==
                (if a in g.counts then Excess(g, a) else 0) +
                (if op.MoveAssign? && a == g.slots[op.h].addr then 1 else 0)
    {
      if op.MakeEmpty? || op.MakeFromRaw? || op.CopyFrom? || op.MoveFrom? {
        BalanceOfNewHandle(g, op, a);
      } else if op.MoveAssign? || op.Swap? {
        BalanceOfRebind(g, op, a);
      } else {
        BalanceOfRelease(g, op, a);
      }
    }
  }

  /** `StepBalance` for the four constructors, which append a handle. */
  lemma BalanceOfNewHandle(g: Graph, op: Op, a: nat)
    requires WellFormed(g) && Enabled(g, op)
    requires op.MakeEmpty? || op.MakeFromRaw? || op.CopyFrom? || op.MoveFrom?
    requires a in Step(g, op).counts
    ensures Excess(Step(g, op), a) == if a in g.counts then Excess(g, a) else 0
  {
    match op
    case MakeEmpty =>
      OwnersAppend(g.slots, Live(NullAddress), a);
    case MakeFromRaw(x) =>
      OwnersAppend(g.slots, Live(x), a);
      if a == x {
        OwnersOfUnheld(g.slots, x);
      }
    case CopyFrom(j) =>
      OwnersAppend(g.slots, g.slots[j], a);
    case MoveFrom(j) =>
      OwnersUpdate(g.slots, j, Live(NullAddress), a);
      OwnersAppend(g.slots[j := Live(NullAddress)], g.slots[j], a);
  }

  /** `StepBalance` for move-assignment and swap, which only rebind handles. */
  lemma BalanceOfRebind(g: Graph, op: Op, a: nat)
    requires WellFormed(g) && Enabled(g, op)
    requires op.MoveAssign? || op.Swap?
    requires a in g.counts
    ensures Step(g, op).counts == g.counts
    ensures Excess(Step(g, op), a) ==
              Excess(g, a) + (if op.MoveAssign? && a == g.slots[op.h].addr then 1 else 0)
  {
    match op
    case MoveAssign(i, j) =>
      OwnersUpdate(g.slots, i, g.slots[j], a);
      OwnersUpdate(g.slots[i := g.slots[j]], j, Live(NullAddress), a);
    case Swap(i, j) =>
      OwnersUpdate(g.slots, i, g.slots[j], a);
      OwnersUpdate(g.slots[i := g.slots[j]], j, g.slots[i], a);
  }

  /** `StepBalance` for the operations that decrement the handle's block. */
  lemma BalanceOfRelease(g: Graph, op: Op, a: nat)
    requires WellFormed(g) && Covered(g) && Enabled(g, op)
    requires op.Destroy? || op.CopyAssign? || op.Reset? || op.ResetTo?
    requires a in Step(g, op).counts
    ensures Excess(Step(g, op), a) == if a in g.counts then Excess(g, a) else 0
  {
    ReleaseIsExact(g, op.h);
    match op
    case Destroy(i) =>
      OwnersUpdate(g.slots, i, Ended, a);
    case CopyAssign(i, j) =>
      OwnersUpdate(g.slots, i, g.slots[j], a);
    case Reset(i) =>
      OwnersUpdate(g.slots, i, Live(NullAddress), a);
    case ResetTo(i, x) =>
      OwnersUpdate(g.slots, i, Live(x), a);
      if a == x {
        OwnersOfUnheld(g.slots, x);
      }
  }

  /** A live bound handle's block has a positive counter, so `dec` really decrements it. */
  lemma ReleaseIsExact(g: Graph, i: nat)
    requires WellFormed(g) && Covered(g) && IsLive(g, i)
    ensures g.slots[i].addr != NullAddress ==>
              g.counts[g.slots[i].addr] >= 1 &&
              SaturatingDec(g.counts[g.slots[i].addr]) == g.counts[g.slots[i].addr] - 1
  {
    if g.slots[i].addr != NullAddress {
      OwnersAtLeastOne(g.slots, i, g.slots[i].addr);
    }
  }

  // ------------------------------------------------------------ invariants

  /** No operation lets a block's counter fall below its number of owners. */
  lemma StepPreservesCovered(g: Graph, op: Op)
    requires WellFormed(g) && Covered(g) && Enabled(g, op)
    ensures Covered(Step(g, op))
  {
    StepBalance(g, op);
  }

  /** Every operation except move-assignment keeps counters equal to owners. */
  lemma StepPreservesAccounted(g: Graph, op: Op)
    requires WellFormed(g) && Accounted(g) && Enabled(g, op)
    requires !op.MoveAssign?
    ensures Accounted(Step(g, op))
  {
    StepBalance(g, op);
  }

  /**
   * Move-assignment keeps counters equal to owners exactly when the target
   * handle was empty: otherwise its old block keeps a count for an owner
   * that no longer holds it.
   */
  lemma MoveAssignAccountedIff(g: Graph, i: nat, j: nat)
    requires WellFormed(g) && Accounted(g) && Enabled(g, MoveAssign(i, j))
    ensures Accounted(Step(g, MoveAssign(i, j))) <==> g.slots[i].addr == NullAddress
  {
    var a := g.slots[i].addr;
    StepBalance(g, MoveAssign(i, j));
    if a != NullAddress {
      assert Excess(Step(g, MoveAssign(i, j)), a) == 1;
    }
  }

  /** Every defined run from a covered graph ends in a covered graph. */
  lemma {:induction false} RunPreservesCovered(g: Graph, ops: seq<Op>)
    requires WellFormed(g) && Covered(g) && Run(g, ops).Some?
    ensures WellFormed(Run(g, ops).value) && Covered(Run(g, ops).value)
    decreases |ops|
  {
    if ops != [] {
      StepPreservesWellFormed(g, ops[0]);
      StepPreservesCovered(g, ops[0]);
      RunPreservesCovered(Step(g, ops[0]), ops[1..]);
    }
  }

  /** A defined run without move-assignment keeps counters equal to owners. */
  lemma {:induction false} RunPreservesAccounted(g: Graph, ops: seq<Op>)
    requires WellFormed(g) && Accounted(g) && Run(g, ops).Some?
    requires forall k :: 0 <= k < |ops| ==> !ops[k].MoveAssign?
    ensures WellFormed(Run(g, ops).value) && Accounted(Run(g, ops).value)
    decreases |ops|
  {
    if ops != [] {
      StepPreservesWellFormed(g, ops[0]);
      StepPreservesAccounted(g, ops[0]);
      RunPreservesAccounted(Step(g, ops[0]), ops[1..]);
    }
  }

  /** Every state a program can reach is well formed and covered. */
  lemma ReachableIsCovered(ops: seq<Op>)
    requires Run(Init, ops).Some?
    ensures WellFormed(Run(Init, ops).value) && Covered(Run(Init, ops).value)
  {
    RunPreservesCovered(Init, ops);
  }

  // ----------------------------------------------------------- consequences

  /**
   * `use_count()` is 0 exactly for an empty handle: a bound handle counts at
   * least itself.
   */
  lemma UseCountZeroIffEmpty(g: Graph, k: nat)
    requires WellFormed(g) && Covered(g)
    requires IsLive(g, k) && Usable(g, g.slots[k].addr)
    ensures UseCount(g, k) == 0 <==> g.slots[k].addr == NullAddress
    ensures UseCount(g, k) >= 0
  {
    ReleaseIsExact(g, k);
  }

  /**
   * The destructor deletes nothing in a covered graph: its `dec` always
   * succeeds on a bound block, and it deletes only when `dec` fails.
   */
  lemma DestroyNeverFrees(g: Graph, i: nat)
    requires WellFormed(g) && Covered(g) && Enabled(g, Destroy(i))
    ensures Step(g, Destroy(i)).freed == g.freed
  {
    ReleaseIsExact(g, i);
  }

  /**
   * Destroying the only owner of a block leaves it with a count of 0, no
   * owner, and still not deleted.
   */
  lemma DestroyLastOwnerLeaks(g: Graph, i: nat)
    requires WellFormed(g) && Accounted(g) && Enabled(g, Destroy(i))
    requires g.slots[i].addr != NullAddress && Owners(g.slots, g.slots[i].addr) == 1
    ensures var a := g.slots[i].addr;
            var g' := Step(g, Destroy(i));
            a in g'.counts && g'.counts[a] == 0 && Owners(g'.slots, a) == 0 && a !in g'.freed
  {
    var a := g.slots[i].addr;
    OwnersUpdate(g.slots, i, Ended, a);
  }

  /**
   * `reset()` on a shared handle deletes the block that another live handle
   * still holds.
   */
  lemma ResetSharedLeavesDangling(g: Graph, i: nat, k: nat)
    requires WellFormed(g) && Enabled(g, Reset(i))
    requires IsLive(g, k) && k != i && g.slots[k] == g.slots[i] && g.slots[i].addr != NullAddress
    ensures var g' := Step(g, Reset(i));
            g'.slots[k] == g.slots[k] && g.slots[k].addr in g'.freed && !Usable(g', g'.slots[k].addr)
  {
  }

  /**
   * In a covered graph the copy-assignment's missing null check is the only
   * condition left: the self-assignment that would delete the block before
   * re-adopting it cannot occur.
   */
  lemma CopyAssignDefinedWhenCovered(g: Graph, i: nat, j: nat)
    requires WellFormed(g) && Covered(g)
    requires IsLive(g, i) && IsLive(g, j)
    requires Usable(g, g.slots[i].addr) && Usable(g, g.slots[j].addr)
    requires g.slots[j].addr != NullAddress
    ensures Enabled(g, CopyAssign(i, j))
  {
    ReleaseIsExact(g, j);
  }

  /** Swapping twice restores both handles; swapping changes no counter. */
  lemma SwapTwiceRestores(g: Graph, i: nat, j: nat)
    requires Enabled(g, Swap(i, j))
    ensures Step(g, Swap(i, j)).counts == g.counts
    ensures Enabled(Step(g, Swap(i, j)), Swap(i, j))
    ensures Step(Step(g, Swap(i, j)), Swap(i, j)) == g
  {
    var s := Step(Step(g, Swap(i, j)), Swap(i, j)).slots;
    assert s == g.slots;
  }
}

=== FILE: refinement.dfy ===
/**
 * Ties the class model to the ownership graph: for a collection of distinct
 * `SharedPtr` objects (some of them already destroyed) and the blocks
 * allocated so far, keyed by address, `View` is the graph they form, and each method below runs
 * one class method and proves that the new view is `Step` of the old one.
 * The invariants proved about `Step` therefore hold of the class model.
 */
module Refinement {
  import opened SmartPtr
  import opened Ownership

  /**
   * `hs` are distinct handle objects, `ended` the positions of those already
   * destroyed, and `blocks` every block allocated so far, by address.
   */
  ghost predicate Coherent<T>(hs: seq<SharedPtr<T>>, ended: set<nat>, blocks: map<nat, ControlBlock<T>>)
    reads hs, blocks.Values
  {
    && (forall i, j :: 0 <= i < j < |hs| ==> hs[i] != hs[j])
    && (forall a :: a in blocks ==> blocks[a].address == a && blocks[a].Valid())
    && (forall k :: 0 <= k < |hs| && k !in ended && hs[k].data != null ==>
          hs[k].data.address in blocks && blocks[hs[k].data.address] == hs[k].data)
  }

  ghost function View<T>(hs: seq<SharedPtr<T>>, ended: set<nat>, blocks: map<nat, ControlBlock<T>>): Graph
    reads hs, blocks.Values
  {
    Graph(
      seq(|hs|, k requires 0 <= k < |hs| reads hs => if k in ended then Ended else Live(hs[k].Address())),
      map a | a in blocks :: blocks[a].count,
      set a | a in blocks && blocks[a].freed)
  }

  /** A coherent collection forms a well-formed graph. */
  lemma ViewIsWellFormed<T>(hs: seq<SharedPtr<T>>, ended: set<nat>, blocks: map<nat, ControlBlock<T>>)
    requires Coherent(hs, ended, blocks)
    ensures WellFormed(View(hs, ended, blocks))
  {
  }

  /** `use_count()` on a handle reads the same counter as the graph's `UseCount`. */
  lemma UseCountAgrees<T>(hs: seq<SharedPtr<T>>, ended: set<nat>, blocks: map<nat, ControlBlock<T>>, k: nat)
    requires Coherent(hs, ended, blocks) && k < |hs| && k !in ended
    requires Usable(View(hs, ended, blocks), hs[k].Address())
    ensures hs[k].Valid() && !hs[k].Dangling()
    ensures UseCount(View(hs, ended, blocks), k) == hs[k].UseCount()
  {
  }

  /** Runs `hs[i].swap(hs[j])`. */
  method DoSwap<T>(hs: seq<SharedPtr<T>>, ghost ended: set<nat>, ghost blocks: map<nat, ControlBlock<T>>, i: nat, j: nat)
    requires Coherent(hs, ended, blocks) && i < |hs| && j < |hs| && i !in ended && j !in ended
    modifies hs[i], hs[j]
    ensures Coherent(hs, ended, blocks)
    ensures Enabled(old(View(hs, ended, blocks)), Swap(i, j))
    ensures View(hs, ended, blocks) == Step(old(View(hs, ended, blocks)), Swap(i, j))
  {
    hs[i].Swap(hs[j]);
  }

  /** Runs `hs[i] = std::move(hs[j])`. */
  method DoMoveAssign<T>(hs: seq<SharedPtr<T>>, ghost ended: set<nat>, ghost blocks: map<nat, ControlBlock<T>>, i: nat, j: nat)
    requires Coherent(hs, ended, blocks) && i < |hs| && j < |hs| && i !in ended && j !in ended
    modifies hs[i], hs[j]
    ensures Coherent(hs, ended, blocks)
    ensures Enabled(old(View(hs, ended, blocks)), MoveAssign(i, j))
    ensures View(hs, ended, blocks) == Step(old(View(hs, ended, blocks)), MoveAssign(i, j))
  {
    hs[i].MoveAssign(hs[j]);
  }

  /** Runs `hs[i] = hs[j]`. */
  method DoCopyAssign<T>(hs: seq<SharedPtr<T>>, ghost ended: set<nat>, ghost blocks: map<nat, ControlBlock<T>>, i: nat, j: nat)
    requires Coherent(hs, ended, blocks) && i < |hs| && j < |hs| && i !in ended && j !in ended
    requires Enabled(View(hs, ended, blocks), CopyAssign(i, j))
    modifies hs[i], hs[i].data, hs[j].data
    ensures Coherent(hs, ended, blocks)
    ensures View(hs, ended, blocks) == Step(old(View(hs, ended, blocks)), CopyAssign(i, j))
  {
    hs[i].CopyAssign(hs[j]);
  }

  /** Runs `~shared_ptr()` on `hs[i]`, which then counts as ended. */
  method DoDestroy<T>(hs: seq<SharedPtr<T>>, ghost ended: set<nat>, ghost blocks: map<nat, ControlBlock<T>>, i: nat)
    requires Coherent(hs, ended, blocks) && i < |hs| && i !in ended
    requires Enabled(View(hs, ended, blocks), Destroy(i))
    modifies hs[i], hs[i].data
    ensures Coherent(hs, ended + {i}, blocks)
    ensures View(hs, ended + {i}, blocks) == Step(old(View(hs, ended, blocks)), Destroy(i))
  {
    hs[i].Destroy();
  }

  /** Runs `hs[i].reset()`. */
  method DoReset<T>(hs: seq<SharedPtr<T>>, ghost ended: set<nat>, ghost blocks: map<nat, ControlBlock<T>>, i: nat)
    requires Coherent(hs, ended, blocks) && i < |hs| && i !in ended
    requires Enabled(View(hs, ended, blocks), Reset(i))
    modifies hs[i], hs[i].data
    ensures Coherent(hs, ended, blocks)
    ensures View(hs, ended, blocks) == Step(old(View(hs, ended, blocks)), Reset(i))
  {
    hs[i].Reset();
  }

  /** Runs `hs[i].reset(p)`, the new block placed at `address`. */
  method DoResetTo<T>(hs: seq<SharedPtr<T>>, ghost ended: set<nat>, ghost blocks: map<nat, ControlBlock<T>>,
                      i: nat, p: Pointer<T>, address: nat)
    returns (ghost blocks': map<nat, ControlBlock<T>>)
    requires Coherent(hs, ended, blocks) && i < |hs| && i !in ended
    requires Enabled(View(hs, ended, blocks), ResetTo(i, address))
    modifies hs[i], hs[i].data
    ensures fresh(hs[i].data) && blocks' == blocks[address := hs[i].data]
    ensures Coherent(hs, ended, blocks')
    ensures View(hs, ended, blocks') == Step(old(View(hs, ended, blocks)), ResetTo(i, address))
  {
    hs[i].ResetTo(p, address);
    blocks' := blocks[address := hs[i].data];
  }

  /** Runs `shared_ptr()`, appending the new handle. */
  method DoMakeEmpty<T>(hs: seq<SharedPtr<T>>, ghost ended: set<nat>, ghost blocks: map<nat, ControlBlock<T>>)
    returns (h: SharedPtr<T>)
    requires Coherent(hs, ended, blocks) && |hs| !in ended
    ensures fresh(h)
    ensures Coherent(hs + [h], ended, blocks)
    ensures View(hs + [h], ended, blocks) == Step(old(View(hs, ended, blocks)), MakeEmpty)
  {
    h := new SharedPtr.Empty();
  }

  /** Runs `shared_ptr(p)`, the new block placed at `address`, appending the new handle. */
  method DoMakeFromRaw<T>(hs: seq<SharedPtr<T>>, ghost ended: set<nat>, ghost blocks: map<nat, ControlBlock<T>>,
                          p: Pointer<T>, address: nat)
    returns (h: SharedPtr<T>, ghost blocks': map<nat, ControlBlock<T>>)
    requires Coherent(hs, ended, blocks) && |hs| !in ended
    requires Enabled(View(hs, ended, blocks), MakeFromRaw(address))
    ensures fresh(h) && fresh(h.data) && blocks' == blocks[address := h.data]
    ensures Coherent(hs + [h], ended, blocks')
    ensures View(hs + [h], ended, blocks') == Step(old(View(hs, ended, blocks)), MakeFromRaw(address))
  {
    h := new SharedPtr.FromRaw(p, address);
    blocks' := blocks[address := h.data];
  }

  /** Runs `shared_ptr(const shared_ptr&)` on `hs[j]`, appending the new handle. */
  method DoCopyFrom<T>(hs: seq<SharedPtr<T>>, ghost ended: set<nat>, ghost blocks: map<nat, ControlBlock<T>>, j: nat)
    returns (h: SharedPtr<T>)
    requires Coherent(hs, ended, blocks) && j < |hs| && j !in ended && |hs| !in ended
    requires Enabled(View(hs, ended, blocks), CopyFrom(j))
    modifies hs[j].data
    ensures fresh(h)
    ensures Coherent(hs + [h], ended, blocks)
    ensures View(hs + [h], ended, blocks) == Step(old(View(hs, ended, blocks)), CopyFrom(j))
  {
    h := new SharedPtr.Copy(hs[j]);
  }

  /** Runs `shared_ptr(shared_ptr&&)` on `hs[j]`, appending the new handle. */
  method DoMoveFrom<T>(hs: seq<SharedPtr<T>>, ghost ended: set<nat>, ghost blocks: map<nat, ControlBlock<T>>, j: nat)
    returns (h: SharedPtr<T>)
    requires Coherent(hs, ended, blocks) && j < |hs| && j !in ended && |hs| !in ended
    modifies hs[j]
    ensures fresh(h)
    ensures Coherent(hs + [h], ended, blocks)
    ensures Enabled(old(View(hs, ended, blocks)), MoveFrom(j))
    ensures View(hs + [h], ended, blocks) == Step(old(View(hs, ended, blocks)), MoveFrom(j))
  {
    h := new SharedPtr.Move(hs[j]);
  }
}

=== FILE: scenario.dfy ===
/**
 * The demonstration driver main.cpp, replayed on the class model: what each
 * `use_count`, `check_validity`, `check_value` and comparison in it observes,
 * and the counters every block is left with once all handles are destroyed.
 * The driver is split into its test sections; each section's method states
 * the handles and blocks it leaves behind for the next.
 */
module Scenario {
  import opened SmartPtr

  /** "TEST null shared pointer" and "TEST simple shared_ptr": two empty handles. */
  method NullPointerTests()
    returns (p1: SharedPtr<int>, p2: SharedPtr<int>, useCounts: seq<int>, validity: seq<(bool, bool)>)
    ensures fresh(p1) && fresh(p2) && p1 != p2
    ensures p1.Valid() && p2.Valid() && p1.data == null && p2.data == null
    ensures useCounts == [0, 0]
    ensures validity == [(false, false), (false, false)]
  {
    p1 := new SharedPtr<int>.Empty();
    p1.Reset();
    var u1, v1 := p1.UseCount(), (p1.IsNonNull(), p1.Get() != Null);
    p2 := new SharedPtr.Copy(p1);
    var u2, v2 := p2.UseCount(), (p2.IsNonNull(), p2.Get() != Null);
    useCounts, validity := [u1, u2], [v1, v2];
  }

  /** "TEST string shared_ptr": a handle to a new string, then `reset` to another. */
  method StringTests()
    returns (p3: SharedPtr<string>, first: ControlBlock<string>, second: ControlBlock<string>,
             useCount: int, validity: (bool, bool), value: string)
    ensures fresh(p3) && fresh(first) && fresh(second) && first != second
    ensures p3.Valid() && p3.data == second
    ensures first.Valid() && first.address == 1 && first.count == 0 && !first.freed
    ensures second.Valid() && second.address == 2 && second.count == 1 && !second.freed
    ensures second.value == Ptr("BO string")
    ensures useCount == 1 && validity == (true, true) && value == "BOBO String"
  {
    p3 := new SharedPtr.FromRaw(Ptr("BOBO String"), 1);
    first := p3.data;
    useCount, validity, value := p3.UseCount(), (p3.IsNonNull(), p3.Get() != Null), p3.Deref();
    p3.ResetTo(Ptr("BO string"), 2);
    second := p3.data;
  }

  /**
   * "TEST copy", "TEST move" and "TEST assignment operator": `p4` copies
   * `p3`, `p5` is moved from `p3`, `p6` copies `p5`.
   */
  method CopyMoveTests(p3: SharedPtr<string>)
    returns (p4: SharedPtr<string>, p5: SharedPtr<string>, p6: SharedPtr<string>,
             useCounts: seq<int>, validity: seq<(bool, bool)>, values: seq<string>, comparisons: seq<bool>)
    requires p3.Valid() && p3.data != null && !p3.data.freed && p3.data.count == 1
    requires p3.data.value == Ptr("BO string")
    modifies p3, p3.data
    ensures fresh(p4) && fresh(p5) && fresh(p6) && p4 != p5 && p5 != p6 && p4 != p6
    ensures p3.Valid() && p3.data == null
    ensures p4.data == p5.data == p6.data == old(p3.data)
    ensures p4.Valid() && p4.data.count == 3 && !p4.data.freed
    ensures useCounts == [2, 2, 3]
    ensures validity == [(true, true), (true, true), (true, true)]
    ensures values == ["BO string", "BO string", "BO string"]
    ensures comparisons == [true, true, true, true]
  {
    p4 := new SharedPtr.Copy(p3);
    var u4, v4, x4, c1 := p4.UseCount(), (p4.IsNonNull(), p4.Get() != Null), p4.Deref(), p3.Equals(p4);
    p5 := new SharedPtr.Move(p3);
    var u5, v5, x5 := p5.UseCount(), (p5.IsNonNull(), p5.Get() != Null), p5.Deref();
    var c2, c3 := p5.Equals(p4), !p3.IsNonNull();
    // `shared_ptr p6 = p5;` is a copy construction, not an assignment.
    p6 := new SharedPtr.Copy(p5);
    var u6, v6, x6, c4 := p6.UseCount(), (p6.IsNonNull(), p6.Get() != Null), p6.Deref(), p5.Equals(p6);
    useCounts, validity, values := [u4, u5, u6], [v4, v5, v6], [x4, x5, x6];
    comparisons := [c1, c2, c3, c4];
  }

  /**
   * "TEST swapping": a scoped `p7` to a new string swaps with `p6` and is
   * destroyed at the end of its scope.
   */
  method SwapTests(p6: SharedPtr<string>)
    returns (third: ControlBlock<string>, useCounts: seq<int>, values: seq<string>, different: bool)
    requires p6.Valid() && p6.data != null && !p6.data.freed && p6.data.count == 3
    requires p6.data.value == Ptr("BO string")
    modifies p6, p6.data
    ensures fresh(third) && third.Valid() && third.count == 1 && !third.freed
    ensures p6.Valid() && p6.data == third
    ensures old(p6.data).count == 2 && !old(p6.data).freed
    ensures useCounts == [3, 1] && values == ["BO string", "Urish string"] && different
  {
    var p7 := new SharedPtr.FromRaw(Ptr("Urish string"), 3);
    third := p7.data;
    p7.Swap(p6);
    useCounts := [p7.UseCount(), p6.UseCount()];
    values := [p7.Deref(), p6.Deref()];
    different := p7.NotEquals(p6);
    p7.Destroy();
  }

  /**
   * The end of `main`: the destructors of `p6` down to `p1`. `p6` holds the
   * swapped-in block with count 1, `p4` and `p5` share a block with count 2,
   * the others are empty; every counter drops to 0 and nothing is deleted.
   */
  method EndOfMain(p1: SharedPtr<int>, p2: SharedPtr<int>, p3: SharedPtr<string>,
                   p4: SharedPtr<string>, p5: SharedPtr<string>, p6: SharedPtr<string>)
    requires p1.data == null && p2.data == null && p3.data == null
    requires p4 != p5 && p4.data == p5.data && p4.data != null && p4.Valid()
    requires p4.data.count == 2 && !p4.data.freed
    requires p6.data != null && p6.data != p4.data && p6.Valid() && p6.data.count == 1 && !p6.data.freed
    modifies p1, p2, p3, p4, p5, p6, p4.data, p6.data
    ensures old(p4.data).count == 0 && !old(p4.data).freed
    ensures old(p6.data).count == 0 && !old(p6.data).freed
  {
    p6.Destroy();
    p5.Destroy();
    p4.Destroy();
    p3.Destroy();
    p2.Destroy();
    p1.Destroy();
  }

  /**
   * The whole driver. `useCounts` are the values `use_count` reports, in
   * order; `validity` the pairs (`operator bool`, `get() != nullptr`)
   * `check_validity` reports; `values` what `check_value` reads;
   * `comparisons` the results of the five comparisons; `finalCounts` the
   * counters of the three blocks after every destructor has run, and
   * `anyFreed` whether any block was deleted.
   */
  method MainScenario()
    returns (useCounts: seq<int>, validity: seq<(bool, bool)>, values: seq<string>,
             comparisons: seq<bool>, finalCounts: seq<int>, ghost anyFreed: bool)
    ensures useCounts == [0, 0, 1, 2, 2, 3, 3, 1, 2]
    ensures validity == [(false, false), (false, false), (true, true), (true, true), (true, true), (true, true)]
    ensures values == ["BOBO String", "BO string", "BO string", "BO string", "BO string", "Urish string"]
    ensures comparisons == [true, true, true, true, true]
    ensures finalCounts == [0, 0, 0]
    ensures !anyFreed
  {
    var p1, p2, u12, v12 := NullPointerTests();
    var p3, first, second, u3, v3, x3 := StringTests();
    var p4, p5, p6, u456, v456, x456, c1234 := CopyMoveTests(p3);
    var third, u78, x78, c5 := SwapTests(p6);
    var u9 := p5.UseCount();

    EndOfMain(p1, p2, p3, p4, p5, p6);

    useCounts := u12 + [u3] + u456 + u78 + [u9];
    validity := v12 + [v3] + v456;
    values := [x3] + x456 + x78;
    comparisons := c1234 + [c5];
    finalCounts := [first.count, second.count, third.count];
    anyFreed := first.freed || second.freed || third.freed;
  }
}

=== FILE: smart_ptr.dfy ===
/**
 * smart_ptr::shared_ptr<T> from shared_ptr.h: a reference-counted pointer
 * built from a control block (`ptr_data`, which embeds a `ref_count`) and a
 * handle (`shared_ptr`) that holds a nullable pointer to that block.
 *
 * Modelling conventions:
 *  - a raw `T*` is a `Pointer<T>`: `Null` or the pointee it designates;
 *  - `new ptr_data(...)` allocates a `ControlBlock`; the address `new` places
 *    it at is a parameter (`address`), and `NullAddress` is what `nullptr`
 *    compares as, so the ordering operators compare addresses;
 *  - `delete m_data` sets the ghost flag `freed` on the block; `ptr_data` has
 *    no destructor, so the pointee itself is never deleted;
 *  - touching a freed block, like dereferencing a null `ptr_data*`, is
 *    undefined behaviour in C++ and is a precondition here.
 */
module SmartPtr {

  /** A raw `T*`. */
  datatype Pointer<T> = Null | Ptr(target: T)

  /** The address `nullptr` stands for; every block lives at a larger one. */
  const NullAddress: nat := 0

  /** The value `ref_count::dec` leaves in the counter: it never goes below zero. */
  function SaturatingDec(n: int): int
  {
    if n == 0 then n else n - 1
  }

  /**
   * `shared_ptr<T>::ptr_data`. Its `ref_count` member is stored by value in
   * the C++ object, so the counter `m_rc` is the field `count` of the block.
   */
  class ControlBlock<T> {
    const value: Pointer<T>
    const address: nat
    var count: int
    ghost var freed: bool

    ghost predicate Valid()
      reads this
    {
      address != NullAddress && count >= 0
    }

    /** `ptr_data(T*)`, which default-constructs its `ref_count` at 1. */
    constructor (value: Pointer<T>, address: nat)
      requires address != NullAddress
      ensures Valid()
      ensures this.value == value && this.address == address
      ensures count == 1 && !freed
    {
      this.value := value;
      this.address := address;
      count := 1;
      freed := false;
    }

    /** `ref_count::inc`, forwarded by `ptr_data::inc`. */
    method Inc()
      requires Valid() && !freed
      modifies this`count
      ensures Valid()
      ensures count == old(count) + 1
    {
      count := count + 1;
    }

    /**
     * `ref_count::dec`, forwarded by `ptr_data::dec`: refuses to go below
     * zero and reports whether it decremented.
     */
    method Dec() returns (decremented: bool)
      requires Valid() && !freed
      modifies this`count
      ensures Valid()
      ensures decremented <==> old(count) != 0
      ensures decremented ==> count == old(count) - 1
      ensures !decremented ==> count == old(count) == 0
    {
      if count == 0 {
        return false;
      }
      count := count - 1;
      return true;
    }

    /** `ref_count::use_count`, forwarded by `ptr_data::use_count`. */
    function UseCount(): (n: int)
      requires Valid() && !freed
      reads this
      ensures n >= 0
      ensures n == count
    {
      count
    }

    /** `ptr_data::get`: the raw pointer the block owns. */
    function Get(): (p: Pointer<T>)
      requires !freed
      reads this
      ensures p == value
    {
      value
    }

    /** `ptr_data::value`: `*m_value`, defined only for a non-null pointer. */
    function Value(): (v: T)
      requires !freed && value.Ptr?
      reads this
      ensures value == Ptr(v)
    {
      value.target
    }
  }

  /** `smart_ptr::shared_ptr<T>`: `data` is `m_data`, null for an empty handle. */
  class SharedPtr<T> {
    var data: ControlBlock?<T>

    ghost predicate Valid()
      reads this, data
    {
      data != null ==> data.Valid()
    }

    /** The handle is bound to a block that has been deleted. */
    ghost predicate Dangling()
      reads this, data
    {
      data != null && data.freed
    }

    /** The value of `m_data` as an address, which the ordering operators compare. */
    function Address(): nat
      reads this
    {
      if data == null then NullAddress else data.address
    }

    /** `shared_ptr()`. */
    constructor Empty()
      ensures Valid() && data == null
      ensures UseCount() == 0 && !IsNonNull()
    {
      data := null;
    }

    /** `shared_ptr(T*)`: a fresh block owning `p`, with a count of 1. */
    constructor FromRaw(p: Pointer<T>, address: nat)
      requires address != NullAddress
      ensures Valid() && data != null && fresh(data)
      ensures data.value == p && data.address == address
      ensures data.count == 1 && !data.freed
      ensures UseCount() == 1 && Get() == p
    {
      data := new ControlBlock(p, address);
    }

    /** `shared_ptr(const shared_ptr&)`: share `other`'s block and increment it. */
    constructor Copy(other: SharedPtr<T>)
      requires other.Valid() && !other.Dangling()
      modifies other.data
      ensures Valid() && other.Valid()
      ensures data == other.data && other.data == old(other.data)
      ensures data != null ==> data.count == old(other.data.count) + 1 && !data.freed
    {
      data := other.data;
      new;
      if data != null {
        data.Inc();
      }
    }

    /** `shared_ptr(shared_ptr&&)`: take `other`'s block; no count changes. */
    constructor Move(other: SharedPtr<T>)
      requires other.Valid()
      modifies other
      ensures Valid() && other.Valid()
      ensures data == old(other.data) && other.data == null
    {
      data := other.data;
      new;
      other.data := null;
    }

    /**
     * `~shared_ptr()`: decrement a bound block, and delete it only when `dec`
     * reports that there was nothing to decrement (the count was already 0).
     */
    method Destroy()
      requires Valid() && !Dangling()
      modifies this, data
      ensures Valid()
      ensures old(data) != null ==> old(data).count == SaturatingDec(old(data.count))
      ensures old(data) != null ==> (old(data).freed <==> old(data.count) == 0)
      ensures data == if old(data) != null && old(data.count) == 0 then null else old(data)
    {
      if data != null {
        var decremented := data.Dec();
        if !decremented {
          data.freed := true;
          data := null;
        }
      }
    }

    /**
     * `operator=(const shared_ptr&)`: release the current block as the
     * destructor does, then adopt `other`'s block and increment it. `other`
     * is not null-checked, and when both handles share a block whose count
     * is 0 the release deletes the block before it is adopted.
     */
    method CopyAssign(other: SharedPtr<T>)
      requires Valid() && other.Valid() && !Dangling() && !other.Dangling()
      requires other.data != null
      requires data == other.data ==> data.count != 0
      modifies this, data, other.data
      ensures Valid() && other.Valid()
      ensures data == old(other.data) && !data.freed
      ensures old(data) == old(other.data) ==> data.count == old(data.count)
      ensures old(data) != old(other.data) ==> data.count == old(other.data.count) + 1
      ensures old(data) != null && old(data) != old(other.data) ==>
                old(data).count == SaturatingDec(old(data.count)) &&
                (old(data).freed <==> old(data.count) == 0)
    {
      if data != null {
        var decremented := data.Dec();
        if !decremented {
          data.freed := true;
          data := null;
        }
      }
      data := other.data;
      data.Inc();
    }

    /**
     * `operator=(shared_ptr&&)`: overwrite `data` with `other`'s block without
     * releasing the old one, then empty `other` (on self-move this empties
     * the handle). No count changes.
     */
    method MoveAssign(other: SharedPtr<T>)
      requires Valid() && other.Valid()
      modifies this, other
      ensures Valid() && other.Valid()
      ensures other.data == null
      ensures this != other ==> data == old(other.data)
    {
      data := other.data;
      other.data := null;
    }

    /** `swap(shared_ptr&)`: exchange the two block pointers; no count changes. */
    method Swap(other: SharedPtr<T>)
      requires Valid() && other.Valid()
      modifies this, other
      ensures Valid() && other.Valid()
      ensures data == old(other.data) && other.data == old(data)
    {
      var tmp := data;
      data := other.data;
      other.data := tmp;
    }

    /** `reset()`: decrement a bound block, then delete it whatever its count. */
    method Reset()
      requires Valid() && !Dangling()
      modifies this, data
      ensures Valid() && data == null
      ensures old(data) != null ==>
                old(data).count == SaturatingDec(old(data.count)) && old(data).freed
    {
      if data != null {
        var decremented := data.Dec();
        data.freed := true;
        data := null;
      }
    }

    /**
     * `reset(T*)`: decrement the current block (which must exist; it is
     * never deleted here) and bind to a fresh block owning `p`.
     */
    method ResetTo(p: Pointer<T>, address: nat)
      requires Valid() && data != null && !data.freed
      requires address != NullAddress
      modifies this, data
      ensures Valid() && data != null && fresh(data)
      ensures data.value == p && data.address == address
      ensures data.count == 1 && !data.freed
      ensures old(data).count == SaturatingDec(old(data.count)) && !old(data).freed
    {
      var decremented := data.Dec();
      data := new ControlBlock(p, address);
    }

    /** `get()`: the owned raw pointer, or null for an empty handle. */
    function Get(): (p: Pointer<T>)
      requires !Dangling()
      reads this, data
      ensures data == null ==> p == Null
      ensures data != null ==> p == data.value
    {
      if data == null then Null else data.Get()
    }

    /** `operator*`: the pointee; the handle must be bound to a non-null pointer. */
    function Deref(): (v: T)
      requires data != null && !data.freed && data.value.Ptr?
      reads this, data
      ensures Get() == Ptr(v)
    {
      data.Value()
    }

    /** `operator->`: the same pointer `get()` returns. */
    function Arrow(): (p: Pointer<T>)
      requires !Dangling()
      reads this, data
      ensures p == Get()
      ensures p.Ptr? ==> Deref() == p.target
    {
      Get()
    }

    /** `use_count()`: 0 for an empty handle, otherwise the block's counter. */
    function UseCount(): (n: int)
      requires Valid() && !Dangling()
      reads this, data
      ensures n >= 0
      ensures !IsNonNull() ==> n == 0
      ensures IsNonNull() ==> n == data.count
    {
      if data == null then 0 else data.UseCount()
    }

    /** `operator==(nullptr_t)`. */
    function EqualsNull(): (r: bool)
      requires Valid()
      reads this, data
      ensures r <==> Address() == NullAddress
    {
      data == null
    }

    /** `operator!=(nullptr_t)`. */
    function NotEqualsNull(): (r: bool)
      requires Valid()
      reads this, data
      ensures r <==> !EqualsNull()
    {
      data != null
    }

    /** `operator bool`: the handle is bound. */
    function IsNonNull(): (r: bool)
      requires Valid()
      reads this, data
      ensures r <==> NotEqualsNull()
      ensures r <==> Address() != NullAddress
    {
      data != null
    }

    /** `operator==(const shared_ptr&)`: identity of the block pointers. */
    function Equals(other: SharedPtr<T>): (r: bool)
      reads this, other
      ensures r ==> Address() == other.Address()
      ensures r <==> other.data == data
    {
      data == other.data
    }

    /** `operator!=(const shared_ptr&)`. */
    function NotEquals(other: SharedPtr<T>): (r: bool)
      reads this, other
      ensures r <==> !Equals(other)
    {
      data != other.data
    }

    /** `operator<`: the block address of this handle is below `other`'s. */
    function Less(other: SharedPtr<T>): (r: bool)
      reads this, other
      ensures r ==> !Equals(other)
    {
      Address() < other.Address()
    }

    /** `operator<=`. */
    function LessEq(other: SharedPtr<T>): (r: bool)
      reads this, other
      ensures Equals(other) ==> r
      ensures Less(other) ==> r
    {
      Address() <= other.Address()
    }

    /** `operator>`. */
    function Greater(other: SharedPtr<T>): (r: bool)
      reads this, other
      ensures r <==> other.Less(this)
      ensures r <==> !LessEq(other)
    {
      Address() > other.Address()
    }

    /** `operator>=`. */
    function GreaterEq(other: SharedPtr<T>): (r: bool)
      reads this, other
      ensures r <==> other.LessEq(this)
      ensures r <==> !Less(other)
    {
      Address() >= other.Address()
    }
  }

  /**
   * `operator<` is a strict weak order on handles, as sorted containers need:
   * irreflexive, transitive, and with "neither is below the other"
   * transitive as well; `<=` is total.
   */
  lemma LessIsStrictWeakOrder<T>(a: SharedPtr<T>, b: SharedPtr<T>, c: SharedPtr<T>)
    ensures !a.Less(a)
    ensures a.Less(b) && b.Less(c) ==> a.Less(c)
    ensures a.Less(b) ==> !b.Less(a)
    ensures !a.Less(b) && !b.Less(a) && !b.Less(c) && !c.Less(b) ==> !a.Less(c) && !c.Less(a)
    ensures a.LessEq(b) || b.LessEq(a)
  {
  }

  /**
   * When distinct blocks sit at distinct addresses, the four ordering
   * operators agree with `==` on handles: exactly one of `<`, `==`, `>` holds.
   */
  lemma OrderingAgreesWithIdentity<T>(a: SharedPtr<T>, b: SharedPtr<T>)
    requires a.Valid() && b.Valid()
    requires a.data != null && b.data != null && a.data != b.data ==> a.data.address != b.data.address
    ensures a.Equals(b) <==> !a.Less(b) && !a.Greater(b)
    ensures a.LessEq(b) <==> a.Less(b) || a.Equals(b)
    ensures a.GreaterEq(b) <==> a.Greater(b) || a.Equals(b)
    ensures !(a.Less(b) && a.Greater(b))
  {
  }
}
